=== FILE: README.md ===
# Rikyu console chat: history adapter and session model

A Dafny model of the decision logic of a command-line chatbot that talks to a
remote large-language-model service and keeps a local transcript.

Two pieces are modelled, as pure functions over immutable values:

- **The history-to-request adapter** (`getGeminiReply`, module `AiRequest`). From
  the stored transcript it takes the last ten turns, drops everything before the
  first `"user"` turn (or sends no history when there is none), maps every role
  to `"user"` or `"model"`, re-checks that the result starts on a user turn,
  and appends the fixed instruction to the persona to form the final message.
  The remote call is a parameter `Request -> Result<string, string>`. Every
  failure, including the missing credential, goes through one ordered substring
  classifier that yields one of three fixed messages.
- **The session** (`processInput` and `startChat`, module `Chatbot`). A state
  `Session(history, voiceEnabled)` and one input line give a new state and an
  `Effect`. Commands are matched on the whole lower-cased line. Chat text
  appends a user turn, calls the adapter on the history that now ends with that
  turn, and appends a bot turn only when the adapter succeeds. At startup, an
  absent or unreadable history file gives an empty history, and the welcome
  turn is stored only behind a non-empty history.

Supporting modules: `Wrappers` (`Option`, `Result`), `Strings` (ASCII
lower-casing and `String.prototype.includes` with its declarative reading) and
`Transcript` (the `Entry` record).

Behaviour of the program worth noting:

- A missing credential is not a separate error kind. The code throws
  `"GEMINI_API_KEY is not set in the .env file"` inside the `try`. That text
  contains neither `"API key"` nor `"network"`, so the caller gets the generic
  "Could not generate a response" message (`MissingKeyMakesNoCall`).
- An empty credential string counts as missing, because the code tests the variable for truthiness.
- Stored roles are arbitrary strings. Every role other than `"user"` is sent as `"model"`, not only `"bot"`.
- On failure the session shows the adapter's message as well as the fixed apology.
  `ReplyFailed` carries that message.

## Model

| member | source | states |
|---|---|---|
| Strings.ToLower | chatbot.js:119 | lower-casing keeps the length and lower-cases each character independently |
| Strings.LowerChar | chatbot.js:119 | only 'A'..'Z' change, each to its lower-case letter 32 code points up; no result is an upper-case ASCII letter |
| Strings.ContainsIff | utils/aiRequest.js:84-86 | `Strings.Contains`, the model of `String.prototype.includes`, holds exactly when the pattern occurs at some position of the text |
| AiRequest.Window | utils/aiRequest.js:24 | the window is the suffix of the history of length min(length, 10), in the original order |
| AiRequest.UserEntries | utils/aiRequest.js:30 | the user filter keeps only user turns taken from the window, and is non-empty exactly when the window has a user turn |
| AiRequest.FirstUserIndex | utils/aiRequest.js:36 | findIndex gives -1 exactly when there is no user turn, and otherwise a user turn with no user turn before it |
| AiRequest.SentRole | utils/aiRequest.js:43 | "user" stays "user" and every other role, "bot" included, becomes "model" |
| AiRequest.Format | utils/aiRequest.js:42-45 | one stored turn is sent with its message verbatim and as "user" exactly when its role is "user", otherwise as "model" |
| AiRequest.FormatAll | utils/aiRequest.js:42-45 | mapping keeps the length and each text verbatim, and a sent turn is "user" exactly when the stored turn was |
| AiRequest.Anchor | utils/aiRequest.js:27-49 | a window without a user turn sends nothing; otherwise the result is non-empty and starts with a user turn |
| AiRequest.Recheck | utils/aiRequest.js:51-55 | the re-check either empties the history or returns it unchanged, and keeps any history that starts on a user turn |
| AiRequest.SentHistory | utils/aiRequest.js:22-55 | at most ten turns are sent and the sent history is empty or starts with a user turn |
| AiRequest.SentHistoryMeetsReference | utils/aiRequest.js:22-55 | the sent history is the last ten turns from the first user turn onward, mapped; it is empty when those turns hold no user turn |
| AiRequest.ReferenceDeterminesHistory | utils/aiRequest.js:22-55 | that description allows only one history, so it fully determines what is sent |
| AiRequest.RecheckRedundant | utils/aiRequest.js:51-55 | after anchoring, the re-check never changes the history |
| AiRequest.RecheckIdempotent | utils/aiRequest.js:52-55 | applying the re-check twice is the same as applying it once |
| AiRequest.SentHistoryEmptyIff | utils/aiRequest.js:30-55 | no history is sent exactly when the window has no user turn |
| AiRequest.SentHistoryEndsWithLatestUserTurn | utils/aiRequest.js:24-45 | when the transcript ends with a user turn, the sent history is non-empty and ends with that turn's text as a "user" turn |
| AiRequest.AnchorExample | utils/aiRequest.js:33-45 | [bot a, bot b, user hello, bot c] is sent as [user hello, model c] |
| AiRequest.BotOnlyExample | utils/aiRequest.js:46-49 | a window holding one bot turn sends no history |
| AiRequest.SystemMessage | utils/aiRequest.js:69 | the final message is the persona followed by exactly the fixed instruction |
| AiRequest.BuildRequest | utils/aiRequest.js:14-72 | the request fails with the missing-key detail exactly when `KeyMissing` holds, i.e. the key is unset or empty (the truthiness test); otherwise it carries the sent history and the final message |
| AiRequest.PersonaNotInHistory | utils/aiRequest.js:58-72 | the persona does not affect the sent history; it appears only at the head of the final message |
| AiRequest.Classify | utils/aiRequest.js:83-90 | a detail with "API key" gives the key message even when it also has "network"; otherwise "network" gives the network message; anything else gives the generic one |
| AiRequest.GetReply | utils/aiRequest.js:12-92 | with a key, success and the reply text come from the one remote call unchanged, and a failure is that call's classified detail; every failure is one of the three messages |
| AiRequest.ClassifyWithoutKeywordLetters | utils/aiRequest.js:84-90 | a detail without the letters 'k' and 'w' is classified as generic |
| AiRequest.MissingKeyDetailIsGeneric | utils/aiRequest.js:15-16 | the missing-key detail is classified as the generic message |
| AiRequest.MissingKeyMakesNoCall | utils/aiRequest.js:13-90 | without a key the result is the generic message, whatever the remote service would answer |
| Chatbot.Parse | chatbot.js:117-142 | each command is recognised exactly when the lower-cased line equals its word; any other line is chat text kept verbatim |
| Chatbot.SpacedLineIsChat | chatbot.js:119-142 | a line containing a space, such as a command with leading or trailing blanks, is chat text |
| Chatbot.CommandsIgnoreCase | chatbot.js:119-142 | two lines that are equal after lower-casing are the same command |
| Chatbot.UpperCaseCommandExample | chatbot.js:130-141 | "/HeLp" is the help command and "/VOICE" the voice toggle |
| Chatbot.Speaker | chatbot.js:106-110 | the label is "You" exactly for role "user" and the bot's name for every other role |
| Chatbot.DisplayLine | chatbot.js:103-110 | one displayed turn is "[", the formatted time, "] ", the speaker label and ": ", followed by the message verbatim and nothing else |
| Chatbot.ExportLine | chatbot.js:85-86 | one exported turn is the displayed line of the same turn followed by a newline |
| Chatbot.HistoryLines | chatbot.js:102-111 | the display shows one line per turn, in order |
| Chatbot.DisplayHistory | chatbot.js:94-114 | an empty history shows only the title and a notice; otherwise the title line, one line per turn, then the closing line |
| Chatbot.ExportBody | chatbot.js:84-87 | the body is empty exactly for an empty history; otherwise it starts with the first turn's export line and ends with a newline |
| Chatbot.ExportHeader | chatbot.js:81-82 | the header is the title line naming Rikyu, "Exported on: ", the export time verbatim, then a blank line |
| Chatbot.ExportContent | chatbot.js:77-91 | the exported text is the title line naming the bot, the export time line and a blank line, followed by exactly the per-turn body and nothing else |
| Chatbot.ExportAgreesWithDisplay | chatbot.js:84-87 | each exported line is the displayed line of the same turn followed by a newline, so both label speakers alike |
| Chatbot.Load | chatbot.js:29-42 | a stored list is used as it is; an absent or unreadable file gives an empty history, and only an unreadable one is reset |
| Chatbot.WelcomeEntry | chatbot.js:204-209 | the welcome turn has role "bot", the fixed greeting, the given timestamp and the welcome mark |
| Chatbot.Welcome | chatbot.js:204-216 | an empty history stays empty; a non-empty one gains exactly one welcome turn with role "bot" at its end |
| Chatbot.Start | chatbot.js:189-216 | voice starts disabled; a non-empty stored list is kept and gains the welcome turn; any other start has an empty history |
| Chatbot.UserEntry | chatbot.js:145-149 | a chat line becomes a user turn holding the line verbatim |
| Chatbot.BotEntry | chatbot.js:166-170 | a reply becomes a bot turn holding the reply verbatim |
| Chatbot.Step | chatbot.js:117-186 | /exit quits, /history shows the display lines, /export produces the export text, /help shows help and /voice toggles the flag and reports its new value; commands leave the history alone; chat appends the user turn, then the bot turn only when the adapter succeeds, and reports the adapter's message otherwise |
| Chatbot.VoiceTwiceRestores | chatbot.js:138-141 | toggling voice twice gives back the original session |
| Chatbot.HistoryOnlyGrows | chatbot.js:117-186 | every step keeps the previous history as a prefix and adds at most two turns |
| Chatbot.ChatRequestEndsWithInput | chatbot.js:145-163 | with a key, the request for a chat line ends with that line as a user turn |
| Chatbot.ChatWithoutKey | chatbot.js:145-185 | without a key, a chat line stores only the user turn and reports the generic message |
| Chatbot.StepKeepsAnchor | chatbot.js:117-186 | a history that is empty or starts with a user turn keeps that shape after every step, the property the comment at chatbot.js lines 201-203 relies on |
| Chatbot.StartKeepsAnchor | chatbot.js:211-216 | a stored list that is empty or starts with a user turn keeps that shape at startup, since the welcome turn goes at its end |
| Chatbot.FreshStartIsAnchored | chatbot.js:29-42 | starting without a usable file gives an empty history, which satisfies that shape |
| Chatbot.StepKeepsKnownRoles | chatbot.js:145-171 | steps only ever store "user" and "bot" turns |
| Chatbot.StartKeepsKnownRoles | chatbot.js:204-216 | the welcome rule only adds a "bot" turn |

## Left out

- Strings.ToLower: maps only the ASCII letters. The five command words are ASCII, and no non-ASCII character lower-cases to a single character of the command words (U+212A only gives 'k', which none of them contains), so command recognition is unaffected.
- The remote SDK (`getGenerativeModel`, `startChat`, `sendMessage`) is the `remote` parameter. The generation parameters and model name are recorded as constants; nothing is proved about them.
- The credential comes from `dotenv` and the environment; here it is an `Option<string>` input.
- File reads and writes (`saveHistory`, the history file, the export file and its name) are out. The persisted transcript is the session's history, and a load is a `StoredFile` value. A file whose JSON parses to something other than a list of entries is not modelled.
- Entries are assumed to have string `role` and `message` fields. The JavaScript behaviour on malformed entries is not modelled.
- Timestamps and `moment` formatting are opaque. Entry timestamps and the export time are inputs, and per-entry formatting is a function parameter.
- The persona text (`BOT_PERSONALITY`) is a parameter, not reproduced.
- `typeText`, the "contemplating" delay, colouring, the readline loop and `process.exit` are out, as are the help text lines and `console.error` logging. The effects record only what a step shows: `Quit`, `HelpShown`, the displayed lines, the export text and the reply.
- `say.speak` is out. `Replied.spoken` records only whether the reply would be spoken.
- Exceptions thrown after the bot turn is stored (by the typing effect, the speech output or a file write) are not modelled. They would be caught and reported like an adapter failure.
- The unused `botMessages` filter (utils/aiRequest.js:31) is out; it has no effect.
- The single `parts` element of each sent turn is flattened into `Content.text`.

=== FILE: ai_request.dfy ===
/**
 * The history-to-request adapter behind `getGeminiReply`: it cuts the stored
 * transcript down to a window, anchors that window on its first user turn,
 * maps roles to the remote service's vocabulary, appends the persona prompt,
 * performs one remote call and turns any failure into one of three messages.
 * The remote call itself is a parameter of type `Request -> Result<string, string>`.
 */
module AiRequest {
  import opened Wrappers
  import opened Strings
  import opened Transcript

  /** Name of the remote model the session is opened on. */
  const ModelName: string := "gemini-2.0-flash"

  /** Number of most recent turns sent as context. */
  const WindowSize: nat := 10

  /** Role tag the remote service expects for turns not typed by the user. */
  const ModelRole: string := "model"

  /** Fixed text appended to the persona to form the final message of every call. */
  const Instruction: string := "\nRespond to the user's latest message in character."

  /** Detail of the error raised when the credential is absent or empty. */
  const MissingKeyDetail: string := "GEMINI_API_KEY is not set in the .env file"

  /** The three messages a failure is reported with. */
  const ApiKeyMessage: string := "There seems to be an issue with the API key. Please check your .env file."
  const NetworkMessage: string := "Network error. Please check your internet connection."
  const GenericMessage: string := "Could not generate a response. Please try again later."

  /** Fixed sampling parameters handed to the remote service; nothing is proved about them. */
  datatype GenerationConfig = GenerationConfig(temperature: real, topP: real, topK: nat, maxOutputTokens: nat)

  const Config: GenerationConfig := GenerationConfig(0.7, 0.8, 40, 1000)

  /** One turn as the remote service receives it: a role tag and the turn's single text part. */
  datatype Content = Content(role: string, text: string)

  /** Everything the remote call is given: model, prior turns, parameters and the final message. */
  datatype Request = Request(model: string, history: seq<Content>, config: GenerationConfig, message: string)

  /** The last `WindowSize` turns, or all of them when there are fewer (a negative-start slice). */
  function Window(h: seq<Entry>): (w: seq<Entry>)
    ensures |w| == if |h| < WindowSize then |h| else WindowSize
    ensures w == h[|h| - |w|..]
  {
    if |h| <= WindowSize then h else h[|h| - WindowSize..]
  }

  /** The user turns of `w`, in order, as the adapter's filter collects them. */
  function UserEntries(w: seq<Entry>): (r: seq<Entry>)
    ensures forall e :: e in r ==> e in w && IsUser(e)
    ensures |r| > 0 <==> HasUser(w)
    ensures |r| <= |w|
  {
    if |w| == 0 then []
    else
      assert HasUser(w[1..]) ==> HasUser(w) by {
        if HasUser(w[1..]) {
          var i :| 0 <= i < |w[1..]| && IsUser(w[1..][i]);
          assert IsUser(w[i + 1]);
        }
      }
      assert HasUser(w) && !IsUser(w[0]) ==> HasUser(w[1..]) by {
        if HasUser(w) && !IsUser(w[0]) {
          var i :| 0 <= i < |w| && IsUser(w[i]);
          assert w[1..][i - 1] == w[i];
        }
      }
      (if IsUser(w[0]) then [w[0]] else []) + UserEntries(w[1..])
  }

  /** `k` is the position of the first user turn of `w`. */
  ghost predicate IsFirstUser(w: seq<Entry>, k: int)
  {
    0 <= k < |w| && IsUser(w[k]) && forall j :: 0 <= j < k ==> !IsUser(w[j])
  }

  /** Position of the first user turn of `w`, or -1 when there is none (find-index semantics). */
  function FirstUserIndex(w: seq<Entry>): (k: int)
    ensures -1 <= k < |w|
    ensures k == -1 <==> !HasUser(w)
    ensures k != -1 ==> IsFirstUser(w, k)
  {
    if |w| == 0 then -1
    else if IsUser(w[0]) then 0
    else
      var k := FirstUserIndex(w[1..]);
      assert HasUser(w[1..]) <==> HasUser(w) by {
        if HasUser(w[1..]) {
          var i :| 0 <= i < |w[1..]| && IsUser(w[1..][i]);
          assert IsUser(w[i + 1]);
        }
        if HasUser(w) {
          var i :| 0 <= i < |w| && IsUser(w[i]);
          assert w[1..][i - 1] == w[i];
        }
      }
      if k == -1 then -1 else k + 1
  }

  /** The role tag sent for a stored role: "user" stays, every other role becomes "model". */
  function SentRole(role: string): (r: string)
    ensures r == UserRole <==> role == UserRole
    ensures r == UserRole || r == ModelRole
  {
    if role == UserRole then UserRole else ModelRole
  }

  /** The turn a stored entry is sent as. */
  function Format(e: Entry): (c: Content)
    ensures c.text == e.message
    ensures c.role == UserRole <==> IsUser(e)
    ensures c.role == UserRole || c.role == ModelRole
  {
    Content(SentRole(e.role), e.message)
  }

  /** Every entry formatted, order and length kept. */
  function FormatAll(es: seq<Entry>): (r: seq<Content>)
    ensures |r| == |es|
    ensures forall i :: 0 <= i < |es| ==> r[i].text == es[i].message
    ensures forall i :: 0 <= i < |es| ==> (r[i].role == UserRole <==> IsUser(es[i]))
    ensures forall i :: 0 <= i < |es| ==> r[i].role == UserRole || r[i].role == ModelRole
  {
    seq(|es|, i requires 0 <= i < |es| => Format(es[i]))
  }

  /**
   * Anchoring on the first user turn: no history at all when the window holds
   * no user turn, otherwise the window from its first user turn onward.
   */
  function Anchor(w: seq<Entry>): (r: seq<Content>)
    ensures !HasUser(w) ==> r == []
    ensures HasUser(w) ==> 0 < |r| && r[0].role == UserRole
    ensures |r| <= |w|
  {
    if |UserEntries(w)| > 0 then
      var k := FirstUserIndex(w);
      FormatAll(w[k..])
    else
      []
  }

  /** The defensive re-check: drop the history unless it is non-empty and starts on a user turn. */
  function Recheck(fh: seq<Content>): (r: seq<Content>)
    ensures r == [] || (r == fh && r[0].role == UserRole)
    ensures 0 < |fh| && fh[0].role == UserRole ==> r == fh
  {
    if |fh| == 0 || fh[0].role != UserRole then [] else fh
  }

  /** The prior turns sent with a request for transcript `h`. */
  function SentHistory(h: seq<Entry>): (r: seq<Content>)
    ensures |r| <= WindowSize
    ensures r == [] || r[0].role == UserRole
  {
    Recheck(Anchor(Window(h)))
  }

  /**
   * The last ten turns of `h`. A deliberate second copy of `Window`'s slice with the
   * literal 10, so that the reference description below does not rest on `Window`.
   */
  ghost function LastTen(h: seq<Entry>): seq<Entry>
  {
    if |h| <= 10 then h else h[|h| - 10..]
  }

  /** `sent` lists the turns of `w` from position `k` on, each with its role mapped and its text kept. */
  ghost predicate SentFrom(w: seq<Entry>, k: int, sent: seq<Content>)
  {
    && 0 <= k <= |w|
    && |sent| == |w| - k
    && forall i :: 0 <= i < |sent| ==>
         sent[i] == Content(if w[k + i].role == "user" then "user" else "model", w[k + i].message)
  }

  /**
   * Reference description of the sent history, independent of the functions
   * above: with `w` the last ten turns of `h`, it is empty when `w` has no user
   * turn, and otherwise it is `w` from its first user turn onward, mapped.
   */
  ghost predicate IsSentHistory(h: seq<Entry>, sent: seq<Content>)
  {
    var w := LastTen(h);
    (!HasUser(w) && sent == []) || exists k :: IsFirstUser(w, k) && SentFrom(w, k, sent)
  }

  /** The first user turn of a sequence is unique. */
  lemma FirstUserUnique(w: seq<Entry>, k1: int, k2: int)
    requires IsFirstUser(w, k1) && IsFirstUser(w, k2)
    ensures k1 == k2
  {
  }

  /** Two histories sent from the same position of the same window are equal. */
  lemma SentFromUnique(w: seq<Entry>, k: int, s1: seq<Content>, s2: seq<Content>)
    requires SentFrom(w, k, s1) && SentFrom(w, k, s2)
    ensures s1 == s2
  {
  }

  /** The formatted suffix of `w` from `k` on is what the reference sends from `k`. */
  lemma FormatAllIsSentFrom(w: seq<Entry>, k: int)
    requires 0 <= k <= |w|
    ensures SentFrom(w, k, FormatAll(w[k..]))
  {
    var sent := FormatAll(w[k..]);
    forall i | 0 <= i < |sent|
      ensures sent[i] == Content(if w[k + i].role == "user" then "user" else "model", w[k + i].message)
    {
      assert w[k..][i] == w[k + i];
    }
  }

  /** The adapter computes exactly the reference history. */
  lemma SentHistoryMeetsReference(h: seq<Entry>)
    ensures IsSentHistory(h, SentHistory(h))
  {
    var w := Window(h);
    assert w == LastTen(h);
    if HasUser(w) {
      var k := FirstUserIndex(w);
      assert Anchor(w) == FormatAll(w[k..]);
      FormatAllIsSentFrom(w, k);
      assert IsFirstUser(w, k) && SentFrom(w, k, SentHistory(h));
    }
  }

  /** The reference description admits only one history, so it determines the adapter's result. */
  lemma ReferenceDeterminesHistory(h: seq<Entry>, sent: seq<Content>)
    requires IsSentHistory(h, sent)
    ensures sent == SentHistory(h)
  {
    SentHistoryMeetsReference(h);
    var w := LastTen(h);
    var other := SentHistory(h);
    if HasUser(w) {
      var k1 :| IsFirstUser(w, k1) && SentFrom(w, k1, sent);
      var k2 :| IsFirstUser(w, k2) && SentFrom(w, k2, other);
      FirstUserUnique(w, k1, k2);
      SentFromUnique(w, k1, sent, other);
    }
  }

  /** After anchoring, the re-check never changes the history: it is redundant. */
  lemma RecheckRedundant(w: seq<Entry>)
    ensures Recheck(Anchor(w)) == Anchor(w)
  {
  }

  /** Applying the re-check a second time changes nothing. */
  lemma RecheckIdempotent(fh: seq<Content>)
    ensures Recheck(Recheck(fh)) == Recheck(fh)
  {
  }

  /** No history is sent exactly when the last ten turns hold no user turn. */
  lemma SentHistoryEmptyIff(h: seq<Entry>)
    ensures SentHistory(h) == [] <==> !HasUser(Window(h))
  {
  }

  /**
   * When the transcript ends with a user turn, as it does whenever the chat loop
   * calls the adapter, some history is always sent and it ends with that turn.
   */
  lemma SentHistoryEndsWithLatestUserTurn(h: seq<Entry>, u: Entry)
    requires IsUser(u)
    ensures 0 < |SentHistory(h + [u])|
    ensures SentHistory(h + [u])[|SentHistory(h + [u])| - 1] == Content(UserRole, u.message)
  {
    var w := Window(h + [u]);
    assert w[|w| - 1] == u;
    assert HasUser(w);
    var k := FirstUserIndex(w);
    assert Anchor(w) == FormatAll(w[k..]);
    assert w[k..][|w| - 1 - k] == u;
  }

  /** A window opening on two bot turns is sent from its user turn on, with "bot" mapped to "model". */
  lemma AnchorExample()
    ensures var h := [Entry("bot", "a", "t1", false), Entry("bot", "b", "t2", false),
                      Entry("user", "hello", "t3", false), Entry("bot", "c", "t4", false)];
      SentHistory(h) == [Content("user", "hello"), Content("model", "c")]
  {
    var h := [Entry("bot", "a", "t1", false), Entry("bot", "b", "t2", false),
              Entry("user", "hello", "t3", false), Entry("bot", "c", "t4", false)];
    assert IsFirstUser(h, 2);
    assert FirstUserIndex(h) == 2;
    assert h[2..] == [h[2], h[3]];
  }

  /** A window of bot turns only sends no history. */
  lemma BotOnlyExample()
    ensures SentHistory([Entry("bot", "hi", "t1", false)]) == []
  {
    assert !IsUser(Entry("bot", "hi", "t1", false));
  }

  /** The credential counts as missing when it is unset or empty, as the JavaScript truthiness test does. */
  predicate KeyMissing(key: Option<string>)
  {
    key.None? || key.value == ""
  }

  /** The final message of every call: the persona, then the fixed instruction on a new line. */
  function SystemMessage(persona: string): (m: string)
    ensures |m| == |persona| + |Instruction|
    ensures m[..|persona|] == persona
    ensures m[|persona|..] == Instruction
  {
    persona + Instruction
  }

  /**
   * Everything `getGeminiReply` does before the remote call: fail with the
   * missing-key detail, or assemble the request.
   */
  function BuildRequest(key: Option<string>, h: seq<Entry>, persona: string): (r: Result<Request, string>)
    ensures r.Failure? <==> KeyMissing(key)
    ensures r.Failure? ==> r.error == MissingKeyDetail
    ensures r.Success? ==> r.value.history == SentHistory(h) && r.value.message == SystemMessage(persona)
  {
    if KeyMissing(key) then Failure(MissingKeyDetail)
    else Success(Request(ModelName, SentHistory(h), Config, SystemMessage(persona)))
  }

  /** The persona reaches the remote service only in the final message, never in the history. */
  lemma PersonaNotInHistory(key: Option<string>, h: seq<Entry>, p1: string, p2: string)
    requires !KeyMissing(key)
    ensures BuildRequest(key, h, p1).value.history == BuildRequest(key, h, p2).value.history
    ensures BuildRequest(key, h, p1).value.message[..|p1|] == p1
  {
  }

  /**
   * The catch block: a failure detail is reported as one of three messages,
   * checked in order, "API key" before "network", both case-sensitive.
   */
  function Classify(detail: string): (m: string)
    ensures m == ApiKeyMessage || m == NetworkMessage || m == GenericMessage
    ensures m == ApiKeyMessage <==> Contains(detail, "API key")
    ensures m == NetworkMessage <==> !Contains(detail, "API key") && Contains(detail, "network")
  {
    if Contains(detail, "API key") then ApiKeyMessage
    else if Contains(detail, "network") then NetworkMessage
    else GenericMessage
  }

  /**
   * `getGeminiReply`: one attempt at most. The reply text is returned verbatim on
   * success; every failure, including the missing credential, goes through `Classify`.
   */
  function GetReply(key: Option<string>, h: seq<Entry>, persona: string, remote: Request -> Result<string, string>)
    : (r: Result<string, string>)
    ensures !KeyMissing(key) ==> var call := remote(BuildRequest(key, h, persona).value);
      (r.Success? <==> call.Success?)
      && (r.Success? ==> r.value == call.value)
      && (r.Failure? ==> r.error == Classify(call.error))
    ensures r.Failure? ==> r.error in {ApiKeyMessage, NetworkMessage, GenericMessage}
  {
    match BuildRequest(key, h, persona)
    case Failure(detail) => Failure(Classify(detail))
    case Success(req) =>
      match remote(req)
      case Success(text) => Success(text)
      case Failure(detail) => Failure(Classify(detail))
  }

  /** A detail with no 'k' and no 'w' can mention neither "API key" nor "network". */
  lemma ClassifyWithoutKeywordLetters(detail: string)
    requires 'k' !in detail && 'w' !in detail
    ensures Classify(detail) == GenericMessage
  {
    assert "API key"[4] == 'k';
    assert "network"[3] == 'w';
    AbsentCharBlocksContains(detail, "API key", 'k');
    AbsentCharBlocksContains(detail, "network", 'w');
  }

  /** The missing-key detail mentions neither "API key" nor "network". */
  lemma MissingKeyDetailIsGeneric()
    ensures Classify(MissingKeyDetail) == GenericMessage
  {
    ClassifyWithoutKeywordLetters(MissingKeyDetail);
  }

  /**
   * Without a credential the caller always gets the generic message, whatever the
   * remote service would have answered: no remote call takes place.
   */
  lemma MissingKeyMakesNoCall(key: Option<string>, h: seq<Entry>, persona: string,
                              remote1: Request -> Result<string, string>,
                              remote2: Request -> Result<string, string>)
    requires KeyMissing(key)
    ensures GetReply(key, h, persona, remote1) == Failure(GenericMessage)
    ensures GetReply(key, h, persona, remote1) == GetReply(key, h, persona, remote2)
  {
    MissingKeyDetailIsGeneric();
  }
}

=== FILE: chatbot.dfy ===
/**
 * The interactive session of the console chatbot: command dispatch on one input
 * line, the history transitions around the adapter call, the startup rules
 * (loading the stored history, appending the welcome line) and the text shown
 * by the history display and the export. Terminal output, files, timers and
 * speech are reduced to the values they would carry.
 */
module Chatbot {
  import opened Wrappers
  import opened Strings
  import opened Transcript
  import AiRequest

  /** Name the bot's turns are labelled with. */
  const BotName: string := "Rikyu"

  /** Label of the user's turns in the display and the export. */
  const UserLabel: string := "You"

  /** Greeting shown at startup and stored only when the history is not empty. */
  const WelcomeMessage: string :=
    "Welcome, seeker. I am Rikyu, a humble guide on the path to wisdom. What brings you to this moment?"

  /** The command words, compared against the lower-cased input line. */
  const ExitCommand: string := "/exit"
  const HistoryCommand: string := "/history"
  const ExportCommand: string := "/export"
  const HelpCommand: string := "/help"
  const VoiceCommand: string := "/voice"

  /** What one input line asks for. */
  datatype Command = Exit | ShowHistory | ExportHistory | Help | ToggleVoice | Chat(text: string)

  /** The session state the program keeps in module-level variables. */
  datatype Session = Session(history: seq<Entry>, voiceEnabled: bool)

  /**
   * What the outside world sees of one step. `Replied.spoken` records whether the
   * reply is also handed to speech output; `ReplyFailed.reason` is the message the
   * adapter failed with, shown before the fixed apology.
   */
  datatype Effect =
    | Quit
    | Shown(lines: seq<string>)
    | Exported(content: string)
    | HelpShown
    | VoiceToggled(enabled: bool)
    | Replied(text: string, spoken: bool)
    | ReplyFailed(reason: string)

  /**
   * The collaborators of one step: the persona, the credential, the remote call,
   * the timestamps the two new entries would get, the already formatted export
   * time and the per-entry time formatting.
   */
  datatype Env = Env(
    persona: string,
    key: Option<string>,
    remote: AiRequest.Request -> Result<string, string>,
    userTime: string,
    botTime: string,
    exportTime: string,
    formatTime: string -> string)

  datatype StepResult = StepResult(session: Session, effect: Effect)

  /** The stored history file as the startup code finds it. */
  datatype StoredFile = Absent | Unreadable | Stored(entries: seq<Entry>)

  /** The history the session starts from, and whether the file was rewritten as an empty list. */
  datatype Loaded = Loaded(history: seq<Entry>, resetFile: bool)

  /** Classifies an input line; a command must equal its word after lower-casing, nothing more. */
  function Parse(input: string): (c: Command)
    ensures c == Exit <==> ToLower(input) == ExitCommand
    ensures c == ShowHistory <==> ToLower(input) == HistoryCommand
    ensures c == ExportHistory <==> ToLower(input) == ExportCommand
    ensures c == Help <==> ToLower(input) == HelpCommand
    ensures c == ToggleVoice <==> ToLower(input) == VoiceCommand
    ensures c.Chat? ==> c.text == input
  {
    var lower := ToLower(input);
    if lower == ExitCommand then Exit
    else if lower == HistoryCommand then ShowHistory
    else if lower == ExportCommand then ExportHistory
    else if lower == HelpCommand then Help
    else if lower == VoiceCommand then ToggleVoice
    else Chat(input)
  }

  /** Commands are matched without regard to case. */
  lemma UpperCaseCommandExample()
    ensures Parse("/HeLp") == Help
    ensures Parse("/VOICE") == ToggleVoice
  {
    assert ToLower("/HeLp") == "/help";
    assert ToLower("/VOICE") == "/voice";
  }

  /** A line holding a space, such as a command with leading or trailing blanks, is chat text. */
  lemma SpacedLineIsChat(input: string)
    requires ' ' in input
    ensures Parse(input) == Chat(input)
  {
    var i :| 0 <= i < |input| && input[i] == ' ';
    var lower := ToLower(input);
    assert lower[i] == ' ';
    assert ' ' !in ExitCommand && ' ' !in HistoryCommand && ' ' !in ExportCommand;
    assert ' ' !in HelpCommand && ' ' !in VoiceCommand;
  }

  /** Lines that agree after lower-casing are the same command. */
  lemma CommandsIgnoreCase(a: string, b: string)
    requires ToLower(a) == ToLower(b)
    ensures !Parse(a).Chat? ==> Parse(a) == Parse(b)
    ensures Parse(a).Chat? <==> Parse(b).Chat?
  {
  }

  /** The speaker label of a turn: "You" for the user's, the bot's name for any other role. */
  function Speaker(role: string): (name: string)
    ensures name == UserLabel <==> role == UserRole
    ensures role != UserRole ==> name == BotName
  {
    if role == UserRole then UserLabel else BotName
  }

  /** One displayed turn: `[time] Speaker: message`. */
  function DisplayLine(e: Entry, formatTime: string -> string): (line: string)
    ensures StartsWith(line, "[" + formatTime(e.timestamp) + "] " + Speaker(e.role) + ": ")
    ensures |line| == |formatTime(e.timestamp)| + |Speaker(e.role)| + |e.message| + 5
    ensures line[|line| - |e.message|..] == e.message
  {
    "[" + formatTime(e.timestamp) + "] " + Speaker(e.role) + ": " + e.message
  }

  /** One exported turn: the same text as the display line, ended by a newline. */
  function ExportLine(e: Entry, formatTime: string -> string): (line: string)
    ensures line == DisplayLine(e, formatTime) + "\n"
  {
    "[" + formatTime(e.timestamp) + "] " + (if e.role == UserRole then UserLabel else BotName) + ": "
      + e.message + "\n"
  }

  /** The display lines of every turn, in order. */
  function HistoryLines(h: seq<Entry>, formatTime: string -> string): (lines: seq<string>)
    ensures |lines| == |h|
    ensures forall i :: 0 <= i < |h| ==> lines[i] == DisplayLine(h[i], formatTime)
  {
    seq(|h|, i requires 0 <= i < |h| => DisplayLine(h[i], formatTime))
  }

  /** The lines `/history` shows; an empty history gets a notice and no closing line. */
  function DisplayHistory(h: seq<Entry>, formatTime: string -> string): (lines: seq<string>)
    ensures |h| == 0 ==> lines == ["\n=== Chat History ===", "No chat history available."]
    ensures |h| > 0 ==> |lines| == |h| + 2 && lines[1..|h| + 1] == HistoryLines(h, formatTime)
    ensures |h| > 0 ==> lines[0] == "\n=== Chat History ===" && lines[|h| + 1] == "=== End of History ===\n"
  {
    if |h| == 0 then ["\n=== Chat History ===", "No chat history available."]
    else ["\n=== Chat History ==="] + HistoryLines(h, formatTime) + ["=== End of History ===\n"]
  }

  /** The body of an export: one line per turn, accumulated front to back. */
  function ExportBody(h: seq<Entry>, formatTime: string -> string): (body: string)
    ensures body == "" <==> |h| == 0
    ensures |h| > 0 ==> body[|body| - 1] == '\n'
    ensures |h| > 0 ==> StartsWith(body, ExportLine(h[0], formatTime))
  {
    if |h| == 0 then "" else ExportLine(h[0], formatTime) + ExportBody(h[1..], formatTime)
  }

  /** The title line naming the bot, the export time line and a blank line. */
  function ExportHeader(exportTime: string): (header: string)
    ensures StartsWith(header, "=== Chat History with Rikyu ===\nExported on: ")
    ensures |header| == 47 + |exportTime|
    ensures header[45..|header| - 2] == exportTime
    ensures header[|header| - 2..] == "\n\n"
  {
    "=== Chat History with " + BotName + " ===\n" + "Exported on: " + exportTime + "\n\n"
  }

  /** The full text written by `/export`: the header, then exactly the per-turn body. */
  function ExportContent(h: seq<Entry>, exportTime: string, formatTime: string -> string): (content: string)
    ensures StartsWith(content, "=== Chat History with " + BotName + " ===\nExported on: " + exportTime + "\n\n")
    ensures |content| == |ExportHeader(exportTime)| + |ExportBody(h, formatTime)|
    ensures content[|ExportHeader(exportTime)|..] == ExportBody(h, formatTime)
  {
    ExportHeader(exportTime) + ExportBody(h, formatTime)
  }

  /** Lines joined with a newline after each one. */
  function Unlines(lines: seq<string>): string
  {
    if |lines| == 0 then "" else lines[0] + "\n" + Unlines(lines[1..])
  }

  /** Export and display label every turn alike: the export body is the display lines, one per line. */
  lemma {:induction false} ExportAgreesWithDisplay(h: seq<Entry>, formatTime: string -> string)
    ensures ExportBody(h, formatTime) == Unlines(HistoryLines(h, formatTime))
    decreases |h|
  {
    if |h| > 0 {
      ExportAgreesWithDisplay(h[1..], formatTime);
      assert HistoryLines(h, formatTime)[1..] == HistoryLines(h[1..], formatTime);
      assert ExportLine(h[0], formatTime) == DisplayLine(h[0], formatTime) + "\n";
    }
  }

  /** The load rule: no file and an unreadable file both give an empty history; the latter also resets the file. */
  function Load(f: StoredFile): (r: Loaded)
    ensures f.Stored? ==> r == Loaded(f.entries, false)
    ensures !f.Stored? ==> r.history == []
    ensures r.resetFile <==> f == Unreadable
  {
    match f
    case Absent => Loaded([], false)
    case Unreadable => Loaded([], true)
    case Stored(entries) => Loaded(entries, false)
  }

  /** The welcome turn stored at startup. */
  function WelcomeEntry(time: string): (e: Entry)
    ensures e.role == BotRole && e.isWelcome
    ensures e.message == WelcomeMessage && e.timestamp == time
  {
    Entry(BotRole, WelcomeMessage, time, true)
  }

  /** The welcome rule: the greeting is stored only behind an existing, non-empty history. */
  function Welcome(h: seq<Entry>, time: string): (r: seq<Entry>)
    ensures |h| == 0 ==> r == []
    ensures |h| > 0 ==> |r| == |h| + 1 && r[..|h|] == h
    ensures |h| > 0 ==> r[|h|].role == BotRole && r[|h|].isWelcome && r[|h|].message == WelcomeMessage
  {
    if |h| > 0 then h + [WelcomeEntry(time)] else h
  }

  /** The session at the first prompt: the loaded history after the welcome rule, voice off. */
  function Start(f: StoredFile, time: string): (s: Session)
    ensures !s.voiceEnabled
    ensures f.Stored? && |f.entries| > 0 ==> s.history == f.entries + [WelcomeEntry(time)]
    ensures !f.Stored? || |f.entries| == 0 ==> s.history == []
  {
    Session(Welcome(Load(f).history, time), false)
  }

  /** The entry appended for a chat line. */
  function UserEntry(text: string, time: string): (e: Entry)
    ensures IsUser(e) && e.message == text && !e.isWelcome
  {
    Entry(UserRole, text, time, false)
  }

  /** The entry appended for a successful reply. */
  function BotEntry(text: string, time: string): (e: Entry)
    ensures e.role == BotRole && e.message == text && !e.isWelcome
  {
    Entry(BotRole, text, time, false)
  }

  /**
   * `processInput`: commands leave the history alone; chat text appends the user
   * turn, asks the adapter with the history that now ends on it, and appends the
   * reply only if the adapter succeeded.
   */
  function Step(s: Session, input: string, env: Env): (r: StepResult)
    ensures Parse(input) == Exit ==> r.effect == Quit
    ensures Parse(input) == ShowHistory ==> r.effect == Shown(DisplayHistory(s.history, env.formatTime))
    ensures Parse(input) == ExportHistory ==>
      r.effect == Exported(ExportContent(s.history, env.exportTime, env.formatTime))
    ensures Parse(input) == Help ==> r.effect == HelpShown
    ensures Parse(input) == ToggleVoice ==> r.effect == VoiceToggled(!s.voiceEnabled)
    ensures !Parse(input).Chat? ==> r.session.history == s.history
    ensures Parse(input) != ToggleVoice ==> r.session.voiceEnabled == s.voiceEnabled
    ensures Parse(input) == ToggleVoice ==> r.session.voiceEnabled == !s.voiceEnabled
    ensures Parse(input).Chat? ==>
      var h1 := s.history + [UserEntry(input, env.userTime)];
      var reply := AiRequest.GetReply(env.key, h1, env.persona, env.remote);
      && (reply.Success? ==> r.session.history == h1 + [BotEntry(reply.value, env.botTime)]
                             && r.effect == Replied(reply.value, s.voiceEnabled))
      && (reply.Failure? ==> r.session.history == h1 && r.effect == ReplyFailed(reply.error))
  {
    match Parse(input)
    case Exit => StepResult(s, Quit)
    case ShowHistory => StepResult(s, Shown(DisplayHistory(s.history, env.formatTime)))
    case ExportHistory => StepResult(s, Exported(ExportContent(s.history, env.exportTime, env.formatTime)))
    case Help => StepResult(s, HelpShown)
    case ToggleVoice =>
      StepResult(s.(voiceEnabled := !s.voiceEnabled), VoiceToggled(!s.voiceEnabled))
    case Chat(text) =>
      var h1 := s.history + [UserEntry(text, env.userTime)];
      match AiRequest.GetReply(env.key, h1, env.persona, env.remote)
      case Success(reply) =>
        StepResult(Session(h1 + [BotEntry(reply, env.botTime)], s.voiceEnabled), Replied(reply, s.voiceEnabled))
      case Failure(reason) =>
        StepResult(Session(h1, s.voiceEnabled), ReplyFailed(reason))
  }

  /** Toggling voice twice gives back the original session. */
  lemma VoiceTwiceRestores(s: Session, input: string, env1: Env, env2: Env)
    requires Parse(input) == ToggleVoice
    ensures Step(Step(s, input, env1).session, input, env2).session == s
  {
  }

  /** Every step keeps the earlier history as a prefix and adds at most two turns. */
  lemma HistoryOnlyGrows(s: Session, input: string, env: Env)
    ensures |s.history| <= |Step(s, input, env).session.history| <= |s.history| + 2
    ensures Step(s, input, env).session.history[..|s.history|] == s.history
  {
    var h := Step(s, input, env).session.history;
    if Parse(input).Chat? {
      var h1 := s.history + [UserEntry(input, env.userTime)];
      var reply := AiRequest.GetReply(env.key, h1, env.persona, env.remote);
      if reply.Success? {
        assert h == h1 + [BotEntry(reply.value, env.botTime)];
        assert h[..|s.history|] == s.history;
      } else {
        assert h == h1;
        assert h[..|s.history|] == s.history;
      }
    }
  }

  /**
   * Every chat line reaches the remote service: with a credential set, the request
   * carries a non-empty history whose last turn is the line just typed.
   */
  lemma ChatRequestEndsWithInput(s: Session, input: string, env: Env)
    requires Parse(input).Chat? && !AiRequest.KeyMissing(env.key)
    ensures var h1 := s.history + [UserEntry(input, env.userTime)];
      var sent := AiRequest.BuildRequest(env.key, h1, env.persona).value.history;
      0 < |sent| && sent[|sent| - 1] == AiRequest.Content(UserRole, input)
  {
    AiRequest.SentHistoryEndsWithLatestUserTurn(s.history, UserEntry(input, env.userTime));
  }

  /** Without a credential a chat line stores only the user turn and reports the generic message. */
  lemma ChatWithoutKey(s: Session, input: string, env: Env)
    requires Parse(input).Chat? && AiRequest.KeyMissing(env.key)
    ensures Step(s, input, env).session.history == s.history + [UserEntry(input, env.userTime)]
    ensures Step(s, input, env).effect == ReplyFailed(AiRequest.GenericMessage)
  {
    AiRequest.MissingKeyMakesNoCall(env.key, s.history + [UserEntry(input, env.userTime)], env.persona,
                                    env.remote, env.remote);
  }

  /** The history is empty or begins with a user turn: what the welcome rule protects. */
  predicate AnchoredOnUser(h: seq<Entry>)
  {
    |h| == 0 || IsUser(h[0])
  }

  /** Every step keeps a history that is empty or starts on a user turn in that shape. */
  lemma StepKeepsAnchor(s: Session, input: string, env: Env)
    requires AnchoredOnUser(s.history)
    ensures AnchoredOnUser(Step(s, input, env).session.history)
  {
    HistoryOnlyGrows(s, input, env);
    var h := Step(s, input, env).session.history;
    if |s.history| == 0 && Parse(input).Chat? {
      assert h[..1] == [UserEntry(input, env.userTime)];
      assert h[0] == h[..1][0];
    } else if |s.history| > 0 {
      assert h[0] == h[..|s.history|][0];
    }
  }

  /** A fresh start (no file, or an unreadable one) yields an anchored, empty history. */
  lemma FreshStartIsAnchored(f: StoredFile, time: string)
    requires !f.Stored?
    ensures Start(f, time).history == []
    ensures AnchoredOnUser(Start(f, time).history)
  {
  }

  /** Every role in the history is one the program writes. */
  predicate KnownRoles(h: seq<Entry>)
  {
    forall i :: 0 <= i < |h| ==> h[i].role == UserRole || h[i].role == BotRole
  }

  /** Steps and the welcome rule only ever write "user" and "bot" turns. */
  lemma StepKeepsKnownRoles(s: Session, input: string, env: Env)
    requires KnownRoles(s.history)
    ensures KnownRoles(Step(s, input, env).session.history)
  {
    if Parse(input).Chat? {
      var h1 := s.history + [UserEntry(input, env.userTime)];
      assert KnownRoles(h1);
      var reply := AiRequest.GetReply(env.key, h1, env.persona, env.remote);
      if reply.Success? {
        assert KnownRoles(h1 + [BotEntry(reply.value, env.botTime)]);
      }
    }
  }

  /** The welcome rule only adds a "bot" turn, so a start from stored known roles keeps them known. */
  lemma StartKeepsKnownRoles(f: StoredFile, time: string)
    requires f.Stored? ==> KnownRoles(f.entries)
    ensures KnownRoles(Start(f, time).history)
  {
  }

  /** A restart keeps the anchor: the welcome turn goes at the end of a non-empty stored list. */
  lemma StartKeepsAnchor(f: StoredFile, time: string)
    requires f.Stored? ==> AnchoredOnUser(f.entries)
    ensures AnchoredOnUser(Start(f, time).history)
  {
  }
}

=== FILE: strings.dfy ===
/** The string operations the chatbot relies on: ASCII case folding and substring search. */
module Strings {

  /** Lower-cases one character; only the ASCII letters 'A'..'Z' change. */
  function LowerChar(c: char): (r: char)
    ensures 'A' <= c <= 'Z' ==> r as int == c as int + 32
    ensures !('A' <= c <= 'Z') ==> r == c
    ensures !('A' <= r <= 'Z')
  {
    if 'A' <= c <= 'Z' then (c as int + 32) as char else c
  }

  /** String.prototype.toLowerCase, restricted to ASCII case mapping. */
  function ToLower(s: string): (r: string)
    ensures |r| == |s|
    ensures forall i :: 0 <= i < |s| ==> r[i] == LowerChar(s[i])
  {
    seq(|s|, i requires 0 <= i < |s| => LowerChar(s[i]))
  }

  /** True when `s` begins with `p`. */
  predicate StartsWith(s: string, p: string)
  {
    |p| <= |s| && s[..|p|] == p
  }

  /** String.prototype.includes: `p` occurs somewhere in `s` (the empty string occurs everywhere). */
  predicate Contains(s: string, p: string)
    decreases |s|
  {
    StartsWith(s, p) || (|s| > 0 && Contains(s[1..], p))
  }

  /** The declarative reading of `Contains`: some window of `s` equals `p`. */
  ghost predicate OccursAt(s: string, p: string, i: int)
  {
    0 <= i && i + |p| <= |s| && s[i..i + |p|] == p
  }

  /** Every match `Contains` reports is an occurrence of `p` in `s`. */
  lemma {:induction false} ContainsHasOccurrence(s: string, p: string)
    requires Contains(s, p)
    ensures exists i :: OccursAt(s, p, i)
    decreases |s|
  {
    if StartsWith(s, p) {
      assert OccursAt(s, p, 0);
    } else {
      ContainsHasOccurrence(s[1..], p);
      var j :| OccursAt(s[1..], p, j);
      assert s[1..][j..j + |p|] == s[j + 1..j + 1 + |p|];
      assert OccursAt(s, p, j + 1);
    }
  }

  /** Every occurrence of `p` in `s` is found by `Contains`. */
  lemma {:induction false} OccurrenceIsContained(s: string, p: string, i: int)
    requires OccursAt(s, p, i)
    ensures Contains(s, p)
    decreases i
  {
    if i > 0 {
      assert s[1..][i - 1..i - 1 + |p|] == s[i..i + |p|];
      OccurrenceIsContained(s[1..], p, i - 1);
    }
  }

  /** `Contains` holds exactly when `p` occurs at some position of `s`. */
  lemma ContainsIff(s: string, p: string)
    ensures Contains(s, p) <==> exists i :: OccursAt(s, p, i)
  {
    if Contains(s, p) {
      ContainsHasOccurrence(s, p);
    }
    if i :| OccursAt(s, p, i) {
      OccurrenceIsContained(s, p, i);
    }
  }

  /** Every character of a contained pattern appears in the text. */
  lemma ContainedCharsOccur(s: string, p: string)
    ensures Contains(s, p) ==> forall c :: c in p ==> c in s
  {
    if Contains(s, p) {
      ContainsHasOccurrence(s, p);
      var i :| OccursAt(s, p, i);
      forall c | c in p
        ensures c in s
      {
        var j :| 0 <= j < |p| && p[j] == c;
        assert s[i + j] == s[i..i + |p|][j];
      }
    }
  }

  /** A pattern holding a character the text lacks does not occur in the text. */
  lemma AbsentCharBlocksContains(s: string, p: string, c: char)
    requires c in p && c !in s
    ensures !Contains(s, p)
  {
    ContainedCharsOccur(s, p);
  }
}

=== FILE: transcript.dfy ===
/** The stored conversation: one record per turn, in insertion order. */
module Transcript {

  /** Role tag of a turn typed by the person at the keyboard. */
  const UserRole: string := "user"

  /** Role tag of a turn produced by the model (including the welcome line). */
  const BotRole: string := "bot"

  /**
   * One history record. `timestamp` is an opaque ISO-8601 string; `isWelcome`
   * marks the greeting appended at startup and is never read by the adapter.
   */
  datatype Entry = Entry(role: string, message: string, timestamp: string, isWelcome: bool)

  /** The test `entry.role === "user"` used by the adapter and by the display code. */
  predicate IsUser(e: Entry)
  {
    e.role == UserRole
  }

  /** True when some turn of `h` was typed by the user. */
  ghost predicate HasUser(h: seq<Entry>)
  {
    exists i :: 0 <= i < |h| && IsUser(h[i])
  }
}

=== FILE: wrappers.dfy ===
/** Failure-carrying datatypes shared by the rest of the model. */
module Wrappers {

  /** An optional value, used for environment variables that may be unset. */
  datatype Option<+T> = None | Some(value: T)

  /** Either a value or an error detail; stands in for a JavaScript call that may throw. */
  datatype Result<+R, +E> = Success(value: R) | Failure(error: E)
}
